=== FILE: README.md ===
# Daily focus tracker — a Dafny model of its date, log and streak logic

The daily focus tracker is a small Next.js application for four daily
activities (jogging, pushups, vibe coding, guitar). The "Log In" page keeps
today's checklist. Each tap flips one activity and writes the whole set for
the day to the browser's `localStorage`. The dashboard reads the logs of a
range of days chosen with two date inputs. It shows how many activities are
done today and the streak of fully complete days that ends the range.

The model has six modules:

- `Wrappers` holds `Option`. It stands for JavaScript's `NaN` and "Invalid
  Date" outcomes.
- `Calendar` models JavaScript `Date` arithmetic on calendar days
  `(year, month, day)`. That covers the proleptic Gregorian successor and
  predecessor, and a day number counted from 0000-01-01. It also covers
  `new Date(y, monthIndex, d)`, with its overflow of months and days and its
  mapping of the years 0..99 to 1900..1999. `setDate` is modelled as well.
- `DateText` models the string built-ins applied to dates. These are
  `String(n)`, `padStart(2, "0")`, `split("-")`, `Number(s)`, the `<` order
  on strings, and the date part of `toISOString()`.
- `Activities` models `lib/activities.ts`. It covers the registry, the
  storage key, the local store as a class over a map of entries, and
  `lastNDays`.
- `Dashboard` models `app/dashboard/page.tsx`. It covers reading and
  printing `YYYY-MM-DD` texts, `offsetDaysIso`, and the `daysInRange` loop.
  It also covers the effect that loads the logs of the range, `doneToday`,
  the streak loop, and a class holding the page state whose two change
  handlers accept a date only inside `start <= end <= today` and keep that
  order once it holds.
- `LogIn` models `app/log-in/page.tsx`. It covers the toggle, as a method on
  a page class that writes through the store, and the
  `count` / `percent` / `allDone` summary.

The model follows the code where the general description of the
application differs from it:

- A toggle flips set membership and writes the set. No completion
  timestamps exist.
- The total is the constant 4, so there is no zero-total case.
- Storage is only the browser's local store.
- The loaded value is the `Set` built from whatever array is stored. The
  cast to `ActivityId[]` is unchecked, so a log is a `set<string>`.
  Properties that need activity ids say so in their preconditions.

The current date and time are always a parameter. `today`, `now` and
`todayDate` stand for `new Date()`.

## Model

| member | source | states |
|---|---|---|
| Calendar.DaysInMonth | app/dashboard/page.tsx:26 | A month has 28 to 31 days, and 29 exactly for February of a leap year. |
| Calendar.NextDay | app/dashboard/page.tsx:26 | The next calendar day is a valid date strictly after the given one, rolling over month and year ends. |
| Calendar.PrevDay | lib/activities.ts:42 | The previous calendar day is a valid date strictly before the given one. |
| Calendar.NextPrevInverse | lib/activities.ts:42 | Stepping forward then back, or back then forward, returns the same day. |
| Calendar.NextDayNumber | app/dashboard/page.tsx:26 | The successor has the next day number. |
| Calendar.PrevDayNumber | lib/activities.ts:42 | The predecessor has the previous day number. |
| Calendar.DayNumberOrder | app/dashboard/page.tsx:24 | Chronological order of valid dates is the order of their day numbers, as `cur <= end` compares time values. |
| Calendar.DayNumberInjective | app/dashboard/page.tsx:24 | Distinct valid dates have distinct day numbers. |
| Calendar.NotAfterDayNumber | app/dashboard/page.tsx:24 | "Not after" is exactly `<=` on day numbers. |
| Calendar.Offset | app/dashboard/page.tsx:39 | Moving a valid date by k days gives a valid date. |
| Calendar.OffsetDayNumber | app/dashboard/page.tsx:39 | Moving by k days changes the day number by exactly k. |
| Calendar.OffsetZero | app/dashboard/page.tsx:39 | A zero move leaves the date as it is. |
| Calendar.OffsetNext | app/dashboard/page.tsx:26 | Moving k + 1 days is one calendar step after moving k days. |
| Calendar.OffsetCompose | app/dashboard/page.tsx:36-41 | Moving a days then b days is moving a + b days. |
| Calendar.OffsetReaches | app/dashboard/page.tsx:24-27 | Every valid date is reached from any other by the move of their day-number difference. |
| Calendar.OffsetInMonth | app/dashboard/page.tsx:39 | Within a month, the day d is d - 1 days after the first. |
| Calendar.MakeLocalDate | app/dashboard/page.tsx:20-21 | `new Date(y, monthIndex, d)` on any integers is a valid date. MakeLocalDateOverflow and MakeLocalDateExamples state how months and days overflow. |
| Calendar.MakeLocalDateOverflow | app/dashboard/page.tsx:20-21 | Outside the years 0..99, a month index 12k + m is month m + 1 of the year k later. The day counts from the first of that month. |
| Calendar.MakeLocalDateExamples | app/dashboard/page.tsx:20-21 | Worked overflows: index 12 is next January, index -1 is last December, 29 February 2026 is 1 March, and day 0 is the last day of the month before. |
| Calendar.MakeLocalDateOfFields | app/dashboard/page.tsx:38 | Building a date from its own fields gives it back, except that the years 0..99 become 1900..1999. |
| Calendar.SetDate | app/dashboard/page.tsx:39 | `setDate(n)` on a valid date gives a valid date, also when n leaves the month. |
| Calendar.SetDateShifts | app/dashboard/page.tsx:39 | `setDate(getDate() + k)` moves the date by exactly k calendar days. |
| Calendar.NextDayExamples | app/dashboard/page.tsx:26 | Worked steps: month ends, 28/29 February in leap and non-leap years (1900, 2000, 2024, 2026), and the year end. |
| DateText.DecimalText | app/dashboard/page.tsx:40 | `String(n)` of a natural number is a non-empty digit string. |
| DateText.PadStart2 | app/dashboard/page.tsx:40 | `padStart(2, "0")` gives length max(2, \|s\|), ends with s and fills with '0'. |
| DateText.Fixed | lib/activities.ts:21 | A field printed to a fixed width is exactly that many digits. |
| DateText.NumberOf | app/dashboard/page.tsx:37 | `Number(s)` is a number exactly when s is all digits ("" included), and then it is non-negative. |
| DateText.IntText | app/dashboard/page.tsx:40 | `String(n)` of any integer is non-empty, starts with `-` exactly when n is negative, and is digits after that sign. |
| DateText.Split | app/dashboard/page.tsx:37 | `split("-")` gives at least one piece. |
| DateText.IsoStringDate | lib/activities.ts:21 | The date part of `toISOString()` has at least ten characters. |
| DateText.FixedDateText | lib/activities.ts:21 | A zero-padded `YYYY-MM-DD` text has ten characters, with dashes at positions 4 and 7. |
| DateText.NumberOfDecimal | app/dashboard/page.tsx:37-40 | `Number(String(n))` is n. |
| DateText.NumberOfFixed | app/dashboard/page.tsx:37 | `Number` reads a zero-padded field back as its value. |
| DateText.DecimalFixed | app/dashboard/page.tsx:40 | A w-digit number prints as its w fixed digits. |
| DateText.DecimalFourDigits | app/dashboard/page.tsx:40 | A four-digit year prints as four fixed digits. |
| DateText.PadTwoDigits | app/dashboard/page.tsx:40 | A month or day 1..99 padded to two characters is its two fixed digits. |
| DateText.SplitThree | app/dashboard/page.tsx:37 | Three dash-free pieces joined by dashes split back into exactly those three pieces. |
| DateText.LexLess | app/dashboard/page.tsx:90-96 | The definition of `<` on strings: character by character, and a proper prefix comes first. It agrees with JavaScript's UTF-16 code-unit order on text without characters above U+FFFF. Its properties are in the lemmas below. |
| DateText.LexConcat | app/dashboard/page.tsx:90 | Texts whose first parts have equal length compare by the first parts, then by the rest. |
| DateText.LexLessTransitive | app/dashboard/page.tsx:90-96 | String `<` is transitive. |
| DateText.LexLessTotal | app/dashboard/page.tsx:90-96 | Any two strings are equal, or one is `<` the other. |
| DateText.FixedOrder | app/dashboard/page.tsx:90 | Zero-padded numbers of one width compare as strings the way they compare as numbers. |
| DateText.FixedDateTextOrder | app/dashboard/page.tsx:90-96 | `YYYY-MM-DD` texts compare with `<` as their (year, month, day) fields compare chronologically. |
| DateText.FixedDateTextInjective | lib/activities.ts:20-22 | Distinct fields give distinct `YYYY-MM-DD` texts. |
| Activities.RegistryCoversIds | lib/activities.ts:3-18 | The registry has four entries, the ids are pairwise distinct, and they are exactly the members of `ActivityId`. |
| Activities.DayLogSizeBound | lib/activities.ts:3 | A log that holds only activity ids has at most `ACTIVITIES.length` members. |
| Activities.DateKey | lib/activities.ts:20-22 | The key is 20 characters long and starts with `daily-log-`. |
| Activities.DateKeyText | lib/activities.ts:20-22 | For the years 0..9999 the key is `daily-log-` followed by the zero-padded `YYYY-MM-DD`. |
| Activities.DateKeyInjective | lib/activities.ts:20-22 | Distinct days of the years 0..9999 have distinct keys. |
| Activities.DateKeyCollidesAfterYear9999 | lib/activities.ts:21 | Beyond year 9999 the first ten characters of the ISO text stop before the day, so two days share a key. |
| Activities.Elements | lib/activities.ts:28 | The definition of `new Set(array)`: the set of the array's items. LoadDayLog's contract states what it gives. |
| Activities.ArrayFrom | lib/activities.ts:35 | `Array.from(set)` lists every member of the set, each exactly once. |
| Activities.LocalLogStore.constructor | lib/activities.ts:25-27 | The store is created with the given window flag and the given `localStorage` entries. |
| Activities.LocalLogStore.LoadDayLog | lib/activities.ts:24-32 | The load is empty unless there is a window and a readable array under the day's key. When there is one, the load holds exactly the array's items. |
| Activities.LocalLogStore.SaveDayLog | lib/activities.ts:34-36 | After a save, loading the same day gives back exactly the saved set. Only the day's key is overwritten, and every other day loads as before. |
| Activities.LastNDays | lib/activities.ts:38-45 | `lastNDays(n)` has n entries, none when n is negative. Entry i is today moved by i - (n - 1) days. |
| Activities.NthOfLastDays | lib/activities.ts:41-43 | One entry, built by `setDate(getDate() - (n - 1 - i))` on today, is today moved by i - (n - 1) days. |
| Activities.LastNDaysConsecutive | lib/activities.ts:38-45 | The last entry is today, and each entry is the calendar day after the one before. |
| Dashboard.LocalDateOf | app/dashboard/page.tsx:13-14 | Reading a text gives either an Invalid Date or a valid calendar date. |
| Dashboard.DateOfParts | app/dashboard/page.tsx:18-21 | Fewer than three pieces, or a piece that is not a number, give an Invalid Date. Anything else gives a valid date. |
| Dashboard.IsoText | app/dashboard/page.tsx:33 | The definition of the `${year}-${month padded}-${day padded}` template. IsoTextFourDigits, IsoTextRoundTrip and IsoTextOrder state what it gives. |
| Dashboard.OffsetDaysIso | app/dashboard/page.tsx:36-41 | The definition of `offsetDaysIso`: read, move, print, or `NaN-NaN-NaN` for an Invalid Date. OffsetDaysIsoNaN, OffsetDaysIsoMoves, OffsetDaysIsoZero and OffsetDaysIsoCompose state what it gives. |
| Dashboard.MovedDate | app/dashboard/page.tsx:37-39 | The definition of the date that `offsetDaysIso` prints, with None for an Invalid Date. MovedDateShifts states that it is the read date moved by the offset. |
| Dashboard.IsoTextFourDigits | app/dashboard/page.tsx:33 | For four-digit years the printed text is the zero-padded `YYYY-MM-DD`, the same text `dateKey` takes from `toISOString()`. |
| Dashboard.IsoTextRoundTrip | app/dashboard/page.tsx:37-40 | Reading back a printed date from year 100 on gives the same date. |
| Dashboard.InvalidIsoTextStaysInvalid | app/dashboard/page.tsx:37-40 | `NaN-NaN-NaN`, the text printed for an Invalid Date, reads back as an Invalid Date. |
| Dashboard.OffsetDaysIsoNaN | app/dashboard/page.tsx:37-40 | The output is `NaN-NaN-NaN` exactly when the input does not read as a date. |
| Dashboard.MovedDateShifts | app/dashboard/page.tsx:37-39 | `offsetDaysIso` moves a readable date by exactly the offset in calendar days. |
| Dashboard.OffsetDaysIsoMoves | app/dashboard/page.tsx:36-41 | For a readable text, the output is the printed text of the date moved by the offset. |
| Dashboard.OffsetDaysIsoZero | app/dashboard/page.tsx:36-41 | A zero offset returns a printed date unchanged. |
| Dashboard.OffsetDaysIsoCompose | app/dashboard/page.tsx:36-41 | Offsetting by a and then by b equals offsetting by a + b, on unreadable texts as well. The intermediate date must not fall before year 100. |
| Dashboard.IsoTextOrder | app/dashboard/page.tsx:90-96 | For four-digit years, `<` on printed dates is chronological order, and equal texts mean equal dates. |
| Dashboard.RangeDays | app/dashboard/page.tsx:22-28 | The definition of the closed-form range: entry i is start moved by i days, for every i up to the day difference. RangeDaysLength, RangeDaysEnds, RangeDaysConsecutive, RangeDaysMembership and RangeDaysAscending state what it gives. |
| Dashboard.RangeOfIso | app/dashboard/page.tsx:17-21 | The definition of the range both texts name: RangeDays of the two read dates, or no days when either is an Invalid Date. DaysInRange is proved equal to it. |
| Dashboard.DaysInRange | app/dashboard/page.tsx:17-29 | The loop yields exactly the listed days of the range. The range is empty when either text is an Invalid Date. |
| Dashboard.DaysFromTo | app/dashboard/page.tsx:22-28 | The `while (cur <= end)` loop with `setDate(getDate() + 1)` yields every day from start to end, i days after start at index i. |
| Dashboard.RangeDaysLength | app/dashboard/page.tsx:24-27 | The range is empty exactly when end is before start. Otherwise it has the day difference plus one entries. |
| Dashboard.RangeDaysEnds | app/dashboard/page.tsx:17-29 | When start is not after end, the first day is start and the last day is end. |
| Dashboard.RangeDaysConsecutive | app/dashboard/page.tsx:26 | Each day of the range is the calendar day after the previous one. |
| Dashboard.RangeDaysMembership | app/dashboard/page.tsx:24-25 | A valid date is in the range exactly when it lies between start and end inclusive. |
| Dashboard.RangeDaysAscending | app/dashboard/page.tsx:24-26 | The days of the range are strictly ascending. |
| Dashboard.OffsetBackStaysInYearRange | app/dashboard/page.tsx:60 | Thirteen days back from a date after year 100 stays within the previous year or later. |
| Dashboard.DefaultRangeHasFourteenDays | app/dashboard/page.tsx:59-63 | For today in year 101 or later, the opening range, `offsetDaysIso(today, -13)` to today, has 14 days. It starts 13 days back and ends today. |
| Dashboard.MonthEndRangeExample | app/dashboard/page.tsx:24-27 | 27 February to 2 March 2026 lists 27 and 28 February and then 1 and 2 March. |
| Dashboard.LoadLogs | app/dashboard/page.tsx:65-72 | The loaded logs have an entry for exactly the days of the range, each holding what the store loads for that day. |
| Dashboard.LoadEach | app/dashboard/page.tsx:67-69 | The loop gives one entry per listed day, holding the store's log for it. |
| Dashboard.FullyComplete | app/dashboard/page.tsx:81-82 | The definition of a fully complete day: its log exists and its size equals `ACTIVITIES.length`. |
| Dashboard.DoneToday | app/dashboard/page.tsx:75-76 | The definition of `doneToday`: the size of today's log, or 0 when there is none. StreakMeansTodayDone states its relation to the streak and its bound. |
| Dashboard.CompleteSuffix | app/dashboard/page.tsx:79-87 | The trailing count of fully complete days is at most the number of days. |
| Dashboard.CompleteSuffixIsLongest | app/dashboard/page.tsx:78-87 | n is the streak exactly when the last n days are fully complete and the day before them, if any, is not. |
| Dashboard.Streak | app/dashboard/page.tsx:79-87 | The backward loop with `break` computes exactly the longest fully complete run ending at the last day. |
| Dashboard.StreakExtremes | app/dashboard/page.tsx:80-86 | The streak is 0 when the last day is missing or incomplete. It equals the number of days exactly when every day is fully complete. |
| Dashboard.StreakMeansTodayDone | app/dashboard/page.tsx:75-87 | A positive streak ending today means `doneToday` equals the number of activities. With only activity ids, `doneToday` never exceeds it. |
| Dashboard.StreakExamples | app/dashboard/page.tsx:79-87 | A partial last day gives streak 0. A partial first day followed by two full days gives 2. |
| Dashboard.DefaultStartText | app/dashboard/page.tsx:59-61 | For today in the years 1001..9999, the default start prints as the day 13 days back. As a text it is not after today. |
| Dashboard.DefaultStartAfterTodayAt1000 | app/dashboard/page.tsx:59-61 | For today 1000-01-05 the default start prints as `999-12-23`, which as a text is after today, so the page opens with `start <= end <= today` broken. |
| Dashboard.DashboardPage.constructor | app/dashboard/page.tsx:59-61 | In any year, the page opens on `offsetDaysIso(today, -13)` to today, with no logs. `start <= end <= today` holds when today is in the years 1001..9999. |
| Dashboard.DashboardPage.HandleStartChange | app/dashboard/page.tsx:89-92 | In any state, a start after the end is ignored and any other value is taken, so a start that is taken is never after the end. `start <= end <= today` is preserved when it held before. |
| Dashboard.DashboardPage.HandleEndChange | app/dashboard/page.tsx:94-98 | In any state, an end before the start or after today is ignored and any other value is taken, so an end that is taken lies between the start and today. `start <= end <= today` is preserved when it held before. |
| Dashboard.DashboardPage.Refresh | app/dashboard/page.tsx:65-72 | Re-running the effect leaves one log per day of the selected range, as the store has it. |
| Dashboard.EmptyStartEmptiesRange | app/dashboard/page.tsx:89-91 | The empty text that a cleared date input sends passes the start guard, because no text is before it. The range it gives is empty, so the page then tracks no days and the streak is 0. |
| Dashboard.OrderedTextsAreChronological | app/dashboard/page.tsx:89-98 | For four-digit years, texts ordered as the guards keep them are chronologically ordered, so no day of the range is after today. |
| LogIn.Flip | app/log-in/page.tsx:21-22 | The toggled set has `id` exactly when the old set lacked it. Every other id's membership is unchanged. |
| LogIn.FlipTwice | app/log-in/page.tsx:19-26 | Toggling the same id twice gives back the original set. |
| LogIn.FlipKeepsIds | app/log-in/page.tsx:22 | Toggling an activity id keeps a log of activity ids a log of activity ids. The size goes down by one when the id was in the log and up by one otherwise. |
| LogIn.Percent | app/log-in/page.tsx:30 | The percentage is the integer nearest to 100 * count / total, with halves rounded up. |
| LogIn.PercentIsQuarterSteps | app/log-in/page.tsx:28-30 | With four activities each one is worth exactly 25 percent. |
| LogIn.PercentExamples | app/log-in/page.tsx:28-30 | 0, 1, 2, 3 and 4 of 4 give 0, 25, 50, 75 and 100 percent. |
| LogIn.SummaryOfIds | app/log-in/page.tsx:28-31 | For a log of activity ids, the count is at most the total and the percentage is within 0..100. The percentage is 100 exactly when `allDone` holds. |
| LogIn.AllDone | app/log-in/page.tsx:31 | The definition of `allDone`: the count equals `ACTIVITIES.length`. SummaryOfIds and AllDoneMeansEveryActivity state what it means. |
| LogIn.AllDoneMeansEveryActivity | app/log-in/page.tsx:31 | For a log of activity ids, `allDone` holds exactly when every registry id is in it. |
| LogIn.LogInPage.constructor | app/log-in/page.tsx:11-12 | The page starts with nothing checked and not mounted. |
| LogIn.LogInPage.Mount | app/log-in/page.tsx:14-17 | The mount effect loads today's log and marks the page mounted. |
| LogIn.LogInPage.Toggle | app/log-in/page.tsx:19-26 | The new state is the flipped copy, and flipping it again gives back the previous state. The store then loads exactly the new set for today, and every other day loads as before. |
| LogIn.LogInPage.ShownCount | app/log-in/page.tsx:45-50 | The count shown never exceeds the size of the log. It equals the total exactly when the "all done" line shows. |
| LogIn.LogInPage.ShownPercent | app/log-in/page.tsx:47 | The percentage shown is 25 per checked activity once mounted, and 0 before. |
| LogIn.LogInPage.ShowsAllDone | app/log-in/page.tsx:50 | The definition of the condition for the "all done" line: `allDone` and mounted. |
| LogIn.ShownSummaryAgrees | app/log-in/page.tsx:47-50 | Once mounted with a log of activity ids, the shown count is at most the total and the shown percentage is at most 100. The percentage is 100 exactly when the "all done" line shows. |

## Left out

- Time zones and DST are not modelled: there is one calendar-date type. `dateKey` takes the UTC date from `toISOString()`, while the dashboard builds dates at local midnight. East or west of UTC the two can name different days.
- Locale formatting (`toLocaleDateString`) and the text of `toDateString()` are not modelled. The dashboard's logs are keyed by the calendar date itself, which is what `toDateString()` identifies.
- The wall clock (`new Date()`, `todayIso`, `isToday`) is a parameter: a date, or its printed text.
- JSON text is not modelled. A stored entry is either an array of strings or `Unreadable`. `Unreadable` covers the values that load as the empty set: a parse failure, the empty string, `null`, and a non-iterable value such as a number, a boolean or an object.
- Two kinds of stored entry are not represented. A JSON string loads as the set of its characters, because `new Set` iterates a string. An array holding non-strings loads as a set of those values.
- Storage quota errors on `setItem` are not modelled.
- `Number(s)` is modelled only for the texts that reach it here: `""` is 0, a string of digits is its value, and anything else is `NaN`. Signs, whitespace, exponents and hexadecimal are not modelled.
- JavaScript's date range limit (±100,000,000 days from 1970) is not modelled. Dates are unbounded.
- LogIn.Percent: computes integer round-half-up where the source uses floating-point `count / total * 100`. The two agree whenever 25 · count ≤ 2^53 (count ≤ 360287970189639). In that range `count / 4 * 100` is exact in double precision, and the range is far beyond any size a JavaScript `Set` reaches.
- Activities.LocalLogStore.SaveDayLog: requires a window, so the `ReferenceError` that `localStorage` raises outside a browser is not modelled. The only caller is a click handler, which runs only in a browser.
- DateText.LexLess: compares Unicode scalar values, where JavaScript compares UTF-16 code units. The two orders differ only when a character above U+FFFF is compared with one in U+E000..U+FFFF. The texts compared here are digits and dashes.
- Activities.ArrayFrom: leaves the order of the array open. JavaScript uses insertion order, and no property here depends on it.
- React rendering, hooks and re-render timing are left out. The page state is class fields, and effects and handlers are methods. The `setState` updater is applied at once.
- Dashboard.IsoTextRoundTrip: holds only from year 100 on, because `new Date(y, …)` maps the years 0..99 to 1900..1999. OffsetDaysIsoZero and OffsetDaysIsoCompose inherit that bound.
- Dashboard.IsoTextOrder: holds only for four-digit years. The `YYYY-MM-DD` text is not zero-padded outside them, so string order no longer matches date order. DateKeyInjective holds only for the years 0..9999.
- Dashboard.DefaultRangeHasFourteenDays: is proved from year 101 on; the source's opening range has 14 days ending today from 0100-01-14 on. For today in 0100-01-01..0100-01-13 the start prints with a two-digit year, for example `99-12-23` for 0100-01-05, which reads back as 1999-12-23, so the opening range is empty. In the years 0..99 today's own text reads back as a day of 1900..1999, so the range does not end today.
- Dashboard.DefaultStartText: is proved for the years 1001..9999. The source also meets it in most other years, and fails it in two kinds of case. In the years 0..99 today's text reads back as a day of 1900..1999, so the start is 13 days before that day. In the first 13 days of a year whose printed year has one digit more than the year before (100, 1000, 10000, …) the start is after today as a text: for example `999-12-23` for 1000-01-05 and `9999-12-23` for 10000-01-05.
- Dashboard.DashboardPage.constructor: promises `start <= end <= today` only for the years 1001..9999. The source's opening state breaks it, for example, in the first 13 days of the years 100, 1000 and 10000; DefaultStartAfterTodayAt1000 proves this for 1000-01-05.
- types/index.ts holds type declarations only, and the other pages and layout components are presentation. None of them is part of this model.

=== FILE: activities.dfy ===
/** The activity registry and the local day-log store (lib/activities.ts).
    The browser's `localStorage` is a map from key text to stored entry; an
    entry is either a JSON array of strings or text that does not read back
    as one (unparseable, not an array, or empty). */
module Activities {
  import opened Calendar
  import opened DateText

  /** A registry entry: the id and its `label` (`label` is a Dafny keyword); icon and colour classes are presentation only. */
  datatype Activity = Activity(id: string, labelText: string)

  const ACTIVITIES: seq<Activity> := [
    Activity("jogging", "Jogging"),
    Activity("pushups", "Pushups"),
    Activity("vibecode", "Vibe Code"),
    Activity("guitar", "Guitar")
  ]

  /** Membership in the `ActivityId` union type. */
  predicate IsActivityId(s: string) {
    s == "jogging" || s == "pushups" || s == "vibecode" || s == "guitar"
  }

  type ActivityId = s: string | IsActivityId(s) witness "jogging"

  /** The registry has four entries with pairwise distinct ids, and its ids
      are exactly the members of `ActivityId`. */
  lemma RegistryCoversIds()
    ensures |ACTIVITIES| == 4
    ensures forall i, j :: 0 <= i < j < |ACTIVITIES| ==> ACTIVITIES[i].id != ACTIVITIES[j].id
    ensures forall i :: 0 <= i < |ACTIVITIES| ==> IsActivityId(ACTIVITIES[i].id)
    ensures forall s :: IsActivityId(s) ==> exists i :: 0 <= i < |ACTIVITIES| && ACTIVITIES[i].id == s
  {
    forall s | IsActivityId(s) ensures exists i :: 0 <= i < |ACTIVITIES| && ACTIVITIES[i].id == s {
      if s == "jogging" { assert ACTIVITIES[0].id == s; }
      else if s == "pushups" { assert ACTIVITIES[1].id == s; }
      else if s == "vibecode" { assert ACTIVITIES[2].id == s; }
      else { assert ACTIVITIES[3].id == s; }
    }
  }

  /** A day log whose members are all activity ids holds at most one per registry entry. */
  lemma {:induction false} DayLogSizeBound(log: set<string>)
    requires forall x :: x in log ==> IsActivityId(x)
    ensures |log| <= |ACTIVITIES|
  {
    var ids := {"jogging", "pushups", "vibecode", "guitar"};
    assert log <= ids;
    assert |ids| == 4;
    SubsetCardinality(log, ids);
  }

  lemma {:induction false} SubsetCardinality(a: set<string>, b: set<string>)
    requires a <= b
    ensures |a| <= |b|
  {
    assert b == a + (b - a);
  }

  // ---------------------------------------------------------------------
  // Storage keys

  /** `"daily-log-"` followed by the first ten characters of the date's `toISOString()`. */
  function DateKey(d: Date): (k: string)
    requires Valid(d)
    ensures |k| == 20 && k[..10] == "daily-log-"
  {
    "daily-log-" + IsoStringDate(d)[..10]
  }

  /** For the years 0..9999 the key is the prefix and the zero-padded `YYYY-MM-DD`. */
  lemma DateKeyText(d: Date)
    requires Valid(d) && 0 <= d.year <= 9999
    ensures DateKey(d) == "daily-log-" + FixedDateText(d.year, d.month, d.day)
  {
    assert IsoStringDate(d)[..10] == FixedDateText(d.year, d.month, d.day);
  }

  /** Distinct calendar days of the years 0..9999 have distinct keys. */
  lemma DateKeyInjective(a: Date, b: Date)
    requires Valid(a) && Valid(b)
    requires 0 <= a.year <= 9999 && 0 <= b.year <= 9999
    requires DateKey(a) == DateKey(b)
    ensures a == b
  {
    DateKeyText(a);
    DateKeyText(b);
    var ka, kb := DateKey(a), DateKey(b);
    assert ka[10..] == FixedDateText(a.year, a.month, a.day);
    assert kb[10..] == FixedDateText(b.year, b.month, b.day);
    FixedDateTextInjective(a.year, a.month, a.day, b.year, b.month, b.day);
  }

  /** Beyond year 9999 the ten characters stop before the day, so two days share a key. */
  lemma DateKeyCollidesAfterYear9999()
    ensures Valid(Date(10000, 1, 1)) && Valid(Date(10000, 1, 2))
    ensures DateKey(Date(10000, 1, 1)) == DateKey(Date(10000, 1, 2))
  {
    var a, b := IsoStringDate(Date(10000, 1, 1)), IsoStringDate(Date(10000, 1, 2));
    assert a[..10] == ("+" + Fixed(10000, 6) + "-" + Fixed(1, 2))[..10];
    assert b[..10] == ("+" + Fixed(10000, 6) + "-" + Fixed(1, 2))[..10];
  }

  // ---------------------------------------------------------------------
  // Stored entries

  datatype Raw = Json(items: seq<string>) | Unreadable

  /** `new Set(array)`. */
  function Elements(items: seq<string>): set<string> {
    set x | x in items
  }

  /** `Array.from(set)`: every member once, in an order the model leaves open. */
  method ArrayFrom(s: set<string>) returns (items: seq<string>)
    ensures Elements(items) == s
    ensures |items| == |s|
  {
    items := [];
    var rest := s;
    while rest != {}
      invariant rest <= s
      invariant Elements(items) == s - rest
      invariant |items| + |rest| == |s|
      decreases |rest|
    {
      var x :| x in rest;
      assert Elements(items + [x]) == Elements(items) + {x};
      items := items + [x];
      rest := rest - {x};
    }
  }

  class LocalLogStore {
    /** False outside a browser, where `window` is undefined. */
    var hasWindow: bool
    var entries: map<string, Raw>

    constructor (hasWindow: bool, entries: map<string, Raw>)
      ensures this.hasWindow == hasWindow && this.entries == entries
    {
      this.hasWindow := hasWindow;
      this.entries := entries;
    }

    /** `loadDayLog`: the stored set for the day, or the empty set when there
        is no window, no entry under the day's key, or an entry that does not
        read back as an array. */
    function LoadDayLog(d: Date): (log: set<string>)
      requires Valid(d)
      reads this
      ensures log != {} ==> hasWindow && DateKey(d) in entries && entries[DateKey(d)].Json?
      ensures hasWindow && DateKey(d) in entries && entries[DateKey(d)].Json?
              ==> forall x :: x in log <==> x in entries[DateKey(d)].items
    {
      if !hasWindow then {}
      else if DateKey(d) !in entries then {}
      else match entries[DateKey(d)]
        case Json(items) => Elements(items)
        case Unreadable => {}
    }

    /** `saveDayLog`: overwrites the entry under the day's key with the set's
        members and leaves every other key as it was. */
    method SaveDayLog(done: set<string>, d: Date)
      requires Valid(d) && hasWindow
      modifies this`entries
      ensures DateKey(d) in entries && entries[DateKey(d)].Json?
      ensures |entries[DateKey(d)].items| == |done|
      ensures entries == old(entries)[DateKey(d) := entries[DateKey(d)]]
      ensures LoadDayLog(d) == done
      ensures forall e :: Valid(e) && DateKey(e) != DateKey(d) ==> LoadDayLog(e) == old(LoadDayLog(e))
    {
      var items := ArrayFrom(done);
      entries := entries[DateKey(d) := Json(items)];
    }
  }

  // ---------------------------------------------------------------------
  // The last n days

  /** `lastNDays(n)`: n dates, oldest first, the i-th moved back n - 1 - i
      days from today with `setDate`; a negative n gives no dates. */
  function LastNDays(today: Date, n: int): (days: seq<Date>)
    requires Valid(today)
    ensures |days| == if n < 0 then 0 else n
    ensures forall i :: 0 <= i < |days| ==> Valid(days[i]) && days[i] == Offset(today, i - (n - 1))
  {
    var len := if n < 0 then 0 else n;
    seq(len, i requires 0 <= i < len => NthOfLastDays(today, n, i))
  }

  /** Entry i of `lastNDays(n)`: `d.setDate(d.getDate() - (n - 1 - i))` on today's date. */
  function NthOfLastDays(today: Date, n: int, i: int): (d: Date)
    requires Valid(today)
    ensures Valid(d) && d == Offset(today, i - (n - 1))
  {
    var k := i - (n - 1);
    SetDateShifts(today, k);
    assert today.day - (n - 1 - i) == today.day + k;
    SetDate(today, today.day + k)
  }

  /** The last n days end today and each is the day after the one before. */
  lemma LastNDaysConsecutive(today: Date, n: int)
    requires Valid(today)
    ensures n > 0 ==> LastNDays(today, n)[n - 1] == today
    ensures forall i :: 0 < i < |LastNDays(today, n)| ==>
              LastNDays(today, n)[i] == NextDay(LastNDays(today, n)[i - 1])
  {
    var days := LastNDays(today, n);
    forall i | 0 < i < |days| ensures days[i] == NextDay(days[i - 1]) {
      OffsetNext(today, i - 1 - (n - 1));
    }
  }
}

=== FILE: calendar.dfy ===
/** Proleptic Gregorian calendar dates, as the JavaScript `Date` object sees
    them once the time of day and the time zone are set aside: a local calendar
    day (year, month 1..12, day of month).  `NextDay` is the successor step that
    `setDate(getDate() + 1)` performs, `Offset` repeats it (or its inverse), and
    `DayNumber` counts days from 0000-01-01 so that ranges have a length. */
module Calendar {

  datatype Date = Date(year: int, month: int, day: int)

  predicate IsLeapYear(y: int) {
    y % 4 == 0 && (y % 100 != 0 || y % 400 == 0)
  }

  function DaysInMonth(y: int, m: int): (n: int)
    requires 1 <= m <= 12
    ensures 28 <= n <= 31
    ensures n == 29 <==> m == 2 && IsLeapYear(y)
  {
    if m == 2 then (if IsLeapYear(y) then 29 else 28)
    else if m == 4 || m == 6 || m == 9 || m == 11 then 30
    else 31
  }

  function DaysInYear(y: int): int {
    if IsLeapYear(y) then 366 else 365
  }

  /** A real calendar day: month 1..12 and a day that exists in that month. */
  predicate Valid(d: Date) {
    1 <= d.month <= 12 && 1 <= d.day <= DaysInMonth(d.year, d.month)
  }

  /** Chronological order: year first, then month, then day. */
  predicate Before(a: Date, b: Date) {
    a.year < b.year
    || (a.year == b.year && a.month < b.month)
    || (a.year == b.year && a.month == b.month && a.day < b.day)
  }

  predicate NotAfter(a: Date, b: Date) {
    a == b || Before(a, b)
  }

  /** The next calendar day, rolling over month and year ends. */
  function NextDay(d: Date): (r: Date)
    requires Valid(d)
    ensures Valid(r) && Before(d, r)
  {
    if d.day < DaysInMonth(d.year, d.month) then Date(d.year, d.month, d.day + 1)
    else if d.month < 12 then Date(d.year, d.month + 1, 1)
    else Date(d.year + 1, 1, 1)
  }

  /** The previous calendar day, rolling back over month and year starts. */
  function PrevDay(d: Date): (r: Date)
    requires Valid(d)
    ensures Valid(r) && Before(r, d)
  {
    if d.day > 1 then Date(d.year, d.month, d.day - 1)
    else if d.month > 1 then Date(d.year, d.month - 1, DaysInMonth(d.year, d.month - 1))
    else Date(d.year - 1, 12, 31)
  }

  lemma NextPrevInverse(d: Date)
    requires Valid(d)
    ensures PrevDay(NextDay(d)) == d
    ensures NextDay(PrevDay(d)) == d
  {
  }

  // ---------------------------------------------------------------------
  // Day numbers

  /** Leap years in [0, y) (negative for y < 0: minus those in [y, 0)). */
  function LeapYearsBefore(y: int): int {
    (y + 3) / 4 - (y + 99) / 100 + (y + 399) / 400
  }

  function DaysBeforeYear(y: int): int {
    365 * y + LeapYearsBefore(y)
  }

  /** Days of year y that precede the first of month m (m == 13 gives the whole year). */
  function DaysBeforeMonth(y: int, m: int): int
    requires 1 <= m <= 13
  {
    var common :=
      if m == 1 then 0 else if m == 2 then 31 else if m == 3 then 59
      else if m == 4 then 90 else if m == 5 then 120 else if m == 6 then 151
      else if m == 7 then 181 else if m == 8 then 212 else if m == 9 then 243
      else if m == 10 then 273 else if m == 11 then 304 else if m == 12 then 334
      else 365;
    if m > 2 && IsLeapYear(y) then common + 1 else common
  }

  /** Days from 0000-01-01 to d. */
  function DayNumber(d: Date): int
    requires Valid(d)
  {
    DaysBeforeYear(d.year) + DaysBeforeMonth(d.year, d.month) + d.day - 1
  }

  lemma DivStep(y: int, k: int)
    requires k == 4 || k == 100 || k == 400
    ensures (y + k) / k - (y + k - 1) / k == if y % k == 0 then 1 else 0
  {
  }

  lemma ModChain(y: int)
    ensures y % 400 == 0 ==> y % 100 == 0
    ensures y % 100 == 0 ==> y % 4 == 0
  {
    if y % 400 == 0 {
      var q := y / 400;
      assert y == 100 * (4 * q);
    }
    if y % 100 == 0 {
      var q := y / 100;
      assert y == 4 * (25 * q);
    }
  }

  lemma {:induction false} DaysBeforeYearStep(y: int)
    ensures DaysBeforeYear(y + 1) == DaysBeforeYear(y) + DaysInYear(y)
  {
    DivStep(y, 4);
    DivStep(y, 100);
    DivStep(y, 400);
    ModChain(y);
    var a := (y + 4) / 4 - (y + 3) / 4;
    var b := (y + 100) / 100 - (y + 99) / 100;
    var c := (y + 400) / 400 - (y + 399) / 400;
    assert LeapYearsBefore(y + 1) == LeapYearsBefore(y) + a - b + c;
    assert IsLeapYear(y) ==> a - b + c == 1;
    assert !IsLeapYear(y) ==> a - b + c == 0;
  }

  lemma MonthStep(y: int, m: int)
    requires 1 <= m <= 12
    ensures DaysBeforeMonth(y, m + 1) == DaysBeforeMonth(y, m) + DaysInMonth(y, m)
  {
  }

  lemma {:induction false} DaysBeforeYearMonotone(a: int, b: int)
    requires a <= b
    ensures DaysBeforeYear(a) + 365 * (b - a) <= DaysBeforeYear(b)
    decreases b - a
  {
    if a < b {
      DaysBeforeYearMonotone(a, b - 1);
      DaysBeforeYearStep(b - 1);
    }
  }

  /** A valid date's day number lies inside its year's and its month's span. */
  lemma DayNumberBounds(d: Date)
    requires Valid(d)
    ensures DaysBeforeYear(d.year) <= DayNumber(d) < DaysBeforeYear(d.year + 1)
    ensures DaysBeforeYear(d.year) + DaysBeforeMonth(d.year, d.month) <= DayNumber(d)
    ensures DayNumber(d) < DaysBeforeYear(d.year) + DaysBeforeMonth(d.year, d.month + 1)
  {
    DaysBeforeYearStep(d.year);
    MonthStep(d.year, d.month);
  }

  lemma NextDayNumber(d: Date)
    requires Valid(d)
    ensures DayNumber(NextDay(d)) == DayNumber(d) + 1
  {
    MonthStep(d.year, d.month);
    if d.day == DaysInMonth(d.year, d.month) && d.month == 12 {
      DaysBeforeYearStep(d.year);
    }
  }

  lemma PrevDayNumber(d: Date)
    requires Valid(d)
    ensures DayNumber(PrevDay(d)) == DayNumber(d) - 1
  {
    NextPrevInverse(d);
    NextDayNumber(PrevDay(d));
  }

  /** Chronological order is day-number order. */
  lemma {:induction false} DayNumberOrder(a: Date, b: Date)
    requires Valid(a) && Valid(b)
    ensures Before(a, b) <==> DayNumber(a) < DayNumber(b)
  {
    if a.year < b.year {
      EarlierYearSmallerNumber(a, b);
    } else if b.year < a.year {
      EarlierYearSmallerNumber(b, a);
    } else if a.month < b.month {
      EarlierMonthSmallerNumber(a, b);
    } else if b.month < a.month {
      EarlierMonthSmallerNumber(b, a);
    }
  }

  lemma EarlierYearSmallerNumber(a: Date, b: Date)
    requires Valid(a) && Valid(b) && a.year < b.year
    ensures DayNumber(a) < DayNumber(b)
  {
    DayNumberBounds(a);
    DayNumberBounds(b);
    DaysBeforeYearMonotone(a.year + 1, b.year);
  }

  lemma EarlierMonthSmallerNumber(a: Date, b: Date)
    requires Valid(a) && Valid(b) && a.year == b.year && a.month < b.month
    ensures DayNumber(a) < DayNumber(b)
  {
    DayNumberBounds(a);
    DayNumberBounds(b);
    MonthMonotone(a.year, a.month + 1, b.month);
  }

  lemma MonthMonotone(y: int, m: int, n: int)
    requires 1 <= m <= n <= 13
    ensures DaysBeforeMonth(y, m) <= DaysBeforeMonth(y, n)
  {
  }

  /** Distinct valid dates have distinct day numbers. */
  lemma DayNumberInjective(a: Date, b: Date)
    requires Valid(a) && Valid(b)
    requires DayNumber(a) == DayNumber(b)
    ensures a == b
  {
    DayNumberOrder(a, b);
    DayNumberOrder(b, a);
  }

  /** Not after is day-number order or equal. */
  lemma NotAfterDayNumber(a: Date, b: Date)
    requires Valid(a) && Valid(b)
    ensures NotAfter(a, b) <==> DayNumber(a) <= DayNumber(b)
  {
    DayNumberOrder(a, b);
    if DayNumber(a) == DayNumber(b) {
      DayNumberInjective(a, b);
    }
  }

  // ---------------------------------------------------------------------
  // Offsets

  /** The date k calendar days after d (before d when k < 0): k successor
      steps, or -k predecessor steps. */
  function Offset(d: Date, k: int): (r: Date)
    requires Valid(d)
    ensures Valid(r)
    decreases if k < 0 then -k else k
  {
    if k == 0 then d
    else if k > 0 then Offset(NextDay(d), k - 1)
    else Offset(PrevDay(d), k + 1)
  }

  /** An offset of k moves the day number by exactly k. */
  lemma {:induction false} OffsetDayNumber(d: Date, k: int)
    requires Valid(d)
    ensures DayNumber(Offset(d, k)) == DayNumber(d) + k
    decreases if k < 0 then -k else k
  {
    if k > 0 {
      NextDayNumber(d);
      OffsetDayNumber(NextDay(d), k - 1);
    } else if k < 0 {
      PrevDayNumber(d);
      OffsetDayNumber(PrevDay(d), k + 1);
    }
  }

  lemma OffsetZero(d: Date)
    requires Valid(d)
    ensures Offset(d, 0) == d
  {
  }

  lemma OffsetNext(d: Date, k: int)
    requires Valid(d)
    ensures Offset(d, k + 1) == NextDay(Offset(d, k))
  {
    NextDayNumber(Offset(d, k));
    OffsetDayNumber(d, k);
    OffsetDayNumber(d, k + 1);
    DayNumberInjective(Offset(d, k + 1), NextDay(Offset(d, k)));
  }

  /** Offsets compose: moving a days and then b days is moving a + b days. */
  lemma OffsetCompose(d: Date, a: int, b: int)
    requires Valid(d)
    ensures Offset(Offset(d, a), b) == Offset(d, a + b)
  {
    OffsetDayNumber(d, a);
    OffsetDayNumber(Offset(d, a), b);
    OffsetDayNumber(d, a + b);
    DayNumberInjective(Offset(Offset(d, a), b), Offset(d, a + b));
  }

  /** Every valid date is reached from d by the offset of their day-number difference. */
  lemma OffsetReaches(d: Date, e: Date)
    requires Valid(d) && Valid(e)
    ensures Offset(d, DayNumber(e) - DayNumber(d)) == e
  {
    OffsetDayNumber(d, DayNumber(e) - DayNumber(d));
    DayNumberInjective(Offset(d, DayNumber(e) - DayNumber(d)), e);
  }

  /** Inside one month the offset from the first is the day of month. */
  lemma OffsetInMonth(y: int, m: int, day: int)
    requires 1 <= m <= 12 && 1 <= day <= DaysInMonth(y, m)
    ensures Offset(Date(y, m, 1), day - 1) == Date(y, m, day)
  {
    OffsetDayNumber(Date(y, m, 1), day - 1);
    DayNumberInjective(Offset(Date(y, m, 1), day - 1), Date(y, m, day));
  }

  // ---------------------------------------------------------------------
  // The JavaScript Date operations used on local dates

  /** `new Date(y, monthIndex, dt)` at local midnight, on integer arguments:
      a year 0..99 means 1900..1999, the month index overflows into the year
      (floor division by 12) and the day overflows into neighbouring months. */
  function MakeLocalDate(y: int, monthIndex: int, dt: int): (r: Date)
    ensures Valid(r)
  {
    var fullYear := if 0 <= y <= 99 then 1900 + y else y;
    Offset(Date(fullYear + monthIndex / 12, monthIndex % 12 + 1, 1), dt - 1)
  }

  /** Building a date from its own fields gives it back, except for the
      years 0..99, which the constructor moves into the twentieth century. */
  lemma MakeLocalDateOfFields(d: Date)
    requires Valid(d)
    ensures !(0 <= d.year <= 99) ==> MakeLocalDate(d.year, d.month - 1, d.day) == d
    ensures 0 <= d.year <= 99 && Valid(d.(year := d.year + 1900))
            ==> MakeLocalDate(d.year, d.month - 1, d.day) == d.(year := d.year + 1900)
  {
    assert (d.month - 1) / 12 == 0 && (d.month - 1) % 12 + 1 == d.month;
    if 0 <= d.year <= 99 {
      if Valid(d.(year := d.year + 1900)) {
        OffsetInMonth(d.year + 1900, d.month, d.day);
      }
    } else {
      OffsetInMonth(d.year, d.month, d.day);
    }
  }

  /** Outside the years 0..99, a month index 12 * k + m is month m + 1 of the
      year k later, and the day counts from the first of that month. */
  lemma MakeLocalDateOverflow(y: int, k: int, m: int, dt: int)
    requires 0 <= m < 12 && !(0 <= y <= 99)
    ensures MakeLocalDate(y, 12 * k + m, dt) == Offset(Date(y + k, m + 1, 1), dt - 1)
  {
    assert (12 * k + m) / 12 == k && (12 * k + m) % 12 == m;
  }

  /** Worked overflows: month index 12 and -1, day 29 of a 28-day February, day 0. */
  lemma MakeLocalDateExamples()
    ensures MakeLocalDate(2026, 12, 1) == Date(2027, 1, 1)
    ensures MakeLocalDate(2026, -1, 1) == Date(2025, 12, 1)
    ensures MakeLocalDate(2026, 1, 29) == Date(2026, 3, 1)
    ensures MakeLocalDate(2026, 0, 0) == Date(2025, 12, 31)
  {
    MakeLocalDateOverflow(2026, 1, 0, 1);
    MakeLocalDateOverflow(2026, -1, 11, 1);
    MakeLocalDateOverflow(2026, 0, 1, 29);
    OffsetInMonth(2026, 2, 28);
    OffsetNext(Date(2026, 2, 1), 27);
    assert NextDay(Date(2026, 2, 28)) == Date(2026, 3, 1);
  }

  /** `date.setDate(dt)`: day dt of the date's own month, overflowing as above. */
  function SetDate(d: Date, dt: int): (r: Date)
    requires Valid(d)
    ensures Valid(r)
  {
    Offset(Date(d.year, d.month, 1), dt - 1)
  }

  /** `date.setDate(date.getDate() + k)` moves the date exactly k calendar days. */
  lemma SetDateShifts(d: Date, k: int)
    requires Valid(d)
    ensures SetDate(d, d.day + k) == Offset(d, k)
  {
    OffsetInMonth(d.year, d.month, d.day);
    OffsetCompose(Date(d.year, d.month, 1), d.day - 1, k);
  }

  /** Month, year and leap-day rollovers of the successor step. */
  lemma NextDayExamples()
    ensures NextDay(Date(2026, 1, 31)) == Date(2026, 2, 1)
    ensures NextDay(Date(2026, 2, 28)) == Date(2026, 3, 1)
    ensures NextDay(Date(2024, 2, 28)) == Date(2024, 2, 29)
    ensures NextDay(Date(2024, 2, 29)) == Date(2024, 3, 1)
    ensures NextDay(Date(1900, 2, 28)) == Date(1900, 3, 1)
    ensures NextDay(Date(2000, 2, 28)) == Date(2000, 2, 29)
    ensures NextDay(Date(2026, 4, 30)) == Date(2026, 5, 1)
    ensures NextDay(Date(2026, 12, 31)) == Date(2027, 1, 1)
  {
  }
}

=== FILE: dashboard.dfy ===
/** The logic of the dashboard page (app/dashboard/page.tsx): reading and
    writing `YYYY-MM-DD` texts, enumerating the selected range of days,
    loading their logs, the full-day streak, and the guards on the two date
    inputs.  The wall clock is a parameter: `today` is given as a date. */
module Dashboard {
  import opened Wrappers
  import opened Calendar
  import opened DateText
  import opened Activities

  /** The text `todayIso` and `offsetDaysIso` build from a date:
      `${year}-${month padded to 2}-${day padded to 2}`. */
  function IsoText(d: Date): string {
    IntText(d.year) + "-" + PadStart2(IntText(d.month)) + "-" + PadStart2(IntText(d.day))
  }

  /** What the same template prints for an Invalid Date, whose getters return NaN. */
  const InvalidIsoText: string := "NaN-NaN-NaN"

  /** `new Date(y, m - 1, d)` on `iso.split("-").map(Number)`, as `toDateString`,
      `daysInRange` and `offsetDaysIso` build it; None is an Invalid Date
      (a missing piece, or a piece that is not a number). */
  function LocalDateOf(iso: string): (r: Option<Date>)
    ensures r.Some? ==> Valid(r.value)
  {
    DateOfParts(Split(iso))
  }

  /** The date the first three pieces of a split text name; pieces after the third are ignored. */
  function DateOfParts(parts: seq<string>): (r: Option<Date>)
    ensures r.Some? ==> Valid(r.value)
    ensures r.None? <==> |parts| < 3 || !AllDigits(parts[0]) || !AllDigits(parts[1]) || !AllDigits(parts[2])
  {
    if |parts| < 3 then None
    else
      var y, m, d := NumberOf(parts[0]), NumberOf(parts[1]), NumberOf(parts[2]);
      if y.Some? && m.Some? && d.Some? then Some(MakeLocalDate(y.value, m.value - 1, d.value))
      else None
  }

  /** `offsetDaysIso(iso, offset)`: read the date, move it with
      `setDate(getDate() + offset)`, print it again. */
  function OffsetDaysIso(iso: string, offset: int): string {
    var moved := MovedDate(iso, offset);
    if moved.None? then InvalidIsoText else IsoText(moved.value)
  }

  /** The date `offsetDaysIso` prints, or None for an Invalid Date. */
  function MovedDate(iso: string, offset: int): Option<Date> {
    var date := LocalDateOf(iso);
    if date.None? then None else Some(SetDate(date.value, date.value.day + offset))
  }

  // ---------------------------------------------------------------------
  // Texts of dates

  /** For four-digit years the text is the zero-padded ten-character
      `YYYY-MM-DD`, the same as the date part of `toISOString()`. */
  lemma IsoTextFourDigits(d: Date)
    requires Valid(d) && 1000 <= d.year <= 9999
    ensures IsoText(d) == FixedDateText(d.year, d.month, d.day)
    ensures IsoText(d) == IsoStringDate(d)[..10]
  {
    DecimalFourDigits(d.year);
    PadTwoDigits(d.month);
    PadTwoDigits(d.day);
    var t := FixedDateText(d.year, d.month, d.day);
    assert IsoStringDate(d) == t;
    assert t[..10] == t;
  }

  /** A printed date of a year from 0 on splits at its two dashes into its three printed fields. */
  lemma IsoTextSplits(d: Date)
    requires Valid(d) && d.year >= 0
    ensures Split(IsoText(d)) == [DecimalText(d.year), Fixed(d.month, 2), Fixed(d.day, 2)]
  {
    var y, m, dd := DecimalText(d.year), Fixed(d.month, 2), Fixed(d.day, 2);
    PadTwoDigits(d.month);
    PadTwoDigits(d.day);
    DigitsHaveNoDash(y);
    DigitsHaveNoDash(m);
    DigitsHaveNoDash(dd);
    assert IsoText(d) == y + "-" + m + "-" + dd;
    SplitThree(y, m, dd);
  }

  /** The three printed fields are read back as numbers and handed to `new Date`. */
  lemma PrintedFieldsParse(d: Date)
    requires Valid(d) && d.year >= 0
    ensures DateOfParts([DecimalText(d.year), Fixed(d.month, 2), Fixed(d.day, 2)])
            == Some(MakeLocalDate(d.year, d.month - 1, d.day))
  {
    NumberOfDecimal(d.year);
    assert Pow10(2) == 100;
    NumberOfFixed(d.month, 2);
    NumberOfFixed(d.day, 2);
  }

  /** Reading back a printed date gives the date, for the years from 100 on
      (`new Date` reads the years 0..99 as 1900..1999). */
  lemma IsoTextRoundTrip(d: Date)
    requires Valid(d) && d.year >= 100
    ensures LocalDateOf(IsoText(d)) == Some(d)
  {
    IsoTextSplits(d);
    PrintedFieldsParse(d);
    MakeLocalDateOfFields(d);
  }

  /** The text printed for an Invalid Date reads back as an Invalid Date. */
  lemma InvalidIsoTextStaysInvalid()
    ensures LocalDateOf(InvalidIsoText) == None
  {
    var nan := "NaN";
    assert InvalidIsoText == nan + "-" + nan + "-" + nan;
    SplitThree(nan, nan, nan);
    assert NumberOf(nan) == None by {
      assert !IsDigit(nan[0]);
    }
  }

  /** `offsetDaysIso` prints `NaN-NaN-NaN` exactly when its input does not
      read as a date: a printed date starts with a digit or a minus sign. */
  lemma OffsetDaysIsoNaN(iso: string, offset: int)
    ensures OffsetDaysIso(iso, offset) == InvalidIsoText <==> LocalDateOf(iso).None?
  {
    var moved := MovedDate(iso, offset);
    if moved.Some? {
      var y := moved.value.year;
      var t := IntText(y);
      assert IsoText(moved.value)[0] == t[0];
      if y >= 0 {
        assert IsDigit(t[0..][0]);
      }
      assert InvalidIsoText[0] == 'N';
    }
  }

  /** `offsetDaysIso` moves a readable date by exactly `offset` calendar days. */
  lemma MovedDateShifts(iso: string, offset: int)
    requires LocalDateOf(iso).Some?
    ensures MovedDate(iso, offset) == Some(Offset(LocalDateOf(iso).value, offset))
  {
    var d := LocalDateOf(iso).value;
    SetDateShifts(d, offset);
  }

  /** The text `offsetDaysIso` prints for a readable date is the moved date's text. */
  lemma OffsetDaysIsoMoves(iso: string, offset: int)
    requires LocalDateOf(iso).Some?
    ensures OffsetDaysIso(iso, offset) == IsoText(Offset(LocalDateOf(iso).value, offset))
  {
    MovedDateShifts(iso, offset);
  }

  /** A zero offset gives back the text of any date from year 100 on. */
  lemma OffsetDaysIsoZero(d: Date)
    requires Valid(d) && d.year >= 100
    ensures OffsetDaysIso(IsoText(d), 0) == IsoText(d)
  {
    IsoTextRoundTrip(d);
    OffsetDaysIsoMoves(IsoText(d), 0);
  }

  /** Two offsets in a row are one offset by their sum, as long as the
      intermediate date does not fall before year 100. */
  lemma OffsetDaysIsoCompose(iso: string, a: int, b: int)
    requires LocalDateOf(iso).Some? ==> Offset(LocalDateOf(iso).value, a).year >= 100
    ensures OffsetDaysIso(OffsetDaysIso(iso, a), b) == OffsetDaysIso(iso, a + b)
  {
    var t := OffsetDaysIso(iso, a);
    if LocalDateOf(iso).None? {
      assert t == InvalidIsoText;
      InvalidIsoTextStaysInvalid();
      assert MovedDate(t, b) == None == MovedDate(iso, a + b);
    } else {
      var d := LocalDateOf(iso).value;
      var e := Offset(d, a);
      OffsetDaysIsoMoves(iso, a);
      assert t == IsoText(e);
      IsoTextRoundTrip(e);
      MovedDateShifts(t, b);
      MovedDateShifts(iso, a + b);
      OffsetCompose(d, a, b);
      assert MovedDate(t, b) == MovedDate(iso, a + b);
    }
  }

  /** For four-digit years, comparing the texts with `<` is comparing the
      dates chronologically, and equal texts are equal dates. */
  lemma IsoTextOrder(a: Date, b: Date)
    requires Valid(a) && Valid(b)
    requires 1000 <= a.year <= 9999 && 1000 <= b.year <= 9999
    ensures LexLess(IsoText(a), IsoText(b)) <==> Before(a, b)
    ensures IsoText(a) == IsoText(b) <==> a == b
  {
    IsoTextFourDigits(a);
    IsoTextFourDigits(b);
    FixedDateTextOrder(a.year, a.month, a.day, b.year, b.month, b.day);
    if IsoText(a) == IsoText(b) {
      FixedDateTextInjective(a.year, a.month, a.day, b.year, b.month, b.day);
    }
  }

  // ---------------------------------------------------------------------
  // The range of days

  /** The calendar days from start to end inclusive, oldest first; none
      when end is before start. */
  function RangeDays(start: Date, end: Date): seq<Date>
    requires Valid(start) && Valid(end)
  {
    var n := if DayNumber(end) < DayNumber(start) then 0 else DayNumber(end) - DayNumber(start) + 1;
    seq(n, i requires 0 <= i < n => Offset(start, i))
  }

  /** The days `daysInRange(startIso, endIso)` lists: none when either text
      is an Invalid Date, since every comparison with NaN is false. */
  function RangeOfIso(startIso: string, endIso: string): seq<Date> {
    var start, end := LocalDateOf(startIso), LocalDateOf(endIso);
    if start.Some? && end.Some? then RangeDays(start.value, end.value) else []
  }

  /** One `setDate(getDate() + 1)` step from the day k days after s is the day k + 1 days after s. */
  lemma StepFromOffset(s: Date, k: int)
    requires Valid(s)
    ensures SetDate(Offset(s, k), Offset(s, k).day + 1) == Offset(s, k + 1)
    ensures DayNumber(Offset(s, k + 1)) == DayNumber(s) + k + 1
  {
    SetDateShifts(Offset(s, k), 1);
    OffsetCompose(s, k, 1);
    OffsetDayNumber(s, k + 1);
  }

  /** `daysInRange`: read both texts, then list the days between them;
      nothing when either is an Invalid Date. */
  method DaysInRange(startIso: string, endIso: string) returns (days: seq<Date>)
    ensures days == RangeOfIso(startIso, endIso)
    ensures forall i :: 0 <= i < |days| ==> Valid(days[i])
  {
    days := [];
    var start, end := LocalDateOf(startIso), LocalDateOf(endIso);
    if start.Some? && end.Some? {
      days := DaysFromTo(start.value, end.value);
    }
  }

  /** The loop of `daysInRange`: push the current day and step it with
      `setDate(getDate() + 1)` while it is not after the end. */
  method DaysFromTo(s: Date, e: Date) returns (days: seq<Date>)
    requires Valid(s) && Valid(e)
    ensures days == RangeDays(s, e)
    ensures forall i :: 0 <= i < |days| ==> Valid(days[i])
  {
    days := [];
    var n := if DayNumber(e) < DayNumber(s) then 0 else DayNumber(e) - DayNumber(s) + 1;
    var cur := s;
    while DayNumber(cur) <= DayNumber(e)
      invariant Valid(cur) && cur == Offset(s, |days|)
      invariant DayNumber(cur) == DayNumber(s) + |days| && |days| <= n
      invariant forall i :: 0 <= i < |days| ==> days[i] == Offset(s, i)
      decreases DayNumber(e) - DayNumber(cur)
    {
      StepFromOffset(s, |days|);
      days := days + [cur];
      cur := SetDate(cur, cur.day + 1);
    }
    assert |days| == n;
  }

  lemma RangeDaysLength(start: Date, end: Date)
    requires Valid(start) && Valid(end)
    ensures |RangeDays(start, end)| == 0 <==> Before(end, start)
    ensures !Before(end, start) ==> |RangeDays(start, end)| == DayNumber(end) - DayNumber(start) + 1
  {
    DayNumberOrder(end, start);
  }

  /** The i-th listed day is i days after start. */
  lemma RangeDaysAt(start: Date, end: Date, i: int)
    requires Valid(start) && Valid(end) && 0 <= i < |RangeDays(start, end)|
    ensures RangeDays(start, end)[i] == Offset(start, i)
    ensures DayNumber(RangeDays(start, end)[i]) == DayNumber(start) + i
  {
    OffsetDayNumber(start, i);
  }

  /** A non-empty range starts at start and ends at end. */
  lemma RangeDaysEnds(start: Date, end: Date)
    requires Valid(start) && Valid(end) && NotAfter(start, end)
    ensures |RangeDays(start, end)| >= 1
    ensures RangeDays(start, end)[0] == start
    ensures RangeDays(start, end)[|RangeDays(start, end)| - 1] == end
  {
    NotAfterDayNumber(start, end);
    OffsetReaches(start, end);
  }

  /** Each listed day is the calendar day after the one before it. */
  lemma RangeDaysConsecutive(start: Date, end: Date)
    requires Valid(start) && Valid(end)
    ensures forall i :: 0 < i < |RangeDays(start, end)| ==>
              RangeDays(start, end)[i] == NextDay(RangeDays(start, end)[i - 1])
  {
    var days := RangeDays(start, end);
    forall i | 0 < i < |days| ensures days[i] == NextDay(days[i - 1]) {
      OffsetNext(start, i - 1);
    }
  }

  /** A valid date is listed exactly when it lies between start and end inclusive. */
  lemma RangeDaysMembership(start: Date, end: Date, d: Date)
    requires Valid(start) && Valid(end) && Valid(d)
    ensures d in RangeDays(start, end) <==> NotAfter(start, d) && NotAfter(d, end)
  {
    var days := RangeDays(start, end);
    NotAfterDayNumber(start, d);
    NotAfterDayNumber(d, end);
    if d in days {
      var i :| 0 <= i < |days| && days[i] == d;
      RangeDaysAt(start, end, i);
    }
    if NotAfter(start, d) && NotAfter(d, end) {
      OffsetReaches(start, d);
      assert days[DayNumber(d) - DayNumber(start)] == d;
    }
  }

  /** The listed days are strictly ascending. */
  lemma RangeDaysAscending(start: Date, end: Date)
    requires Valid(start) && Valid(end)
    ensures forall i, j :: 0 <= i < j < |RangeDays(start, end)| ==>
              Before(RangeDays(start, end)[i], RangeDays(start, end)[j])
  {
    var days := RangeDays(start, end);
    forall i, j | 0 <= i < j < |days| ensures Before(days[i], days[j]) {
      RangeDaysAt(start, end, i);
      RangeDaysAt(start, end, j);
      DayNumberOrder(days[i], days[j]);
    }
  }

  /** Thirteen days back from any day after year 100 stays after year 99. */
  lemma OffsetBackStaysInYearRange(d: Date)
    requires Valid(d) && d.year >= 101
    ensures Offset(d, -13).year >= d.year - 1
  {
    var r := Offset(d, -13);
    OffsetDayNumber(d, -13);
    if r.year < d.year - 1 {
      DayNumberOrder(r, Date(d.year - 1, 1, 1));
      DaysBeforeYearStep(d.year - 1);
      DayNumberBounds(d);
      assert false;
    }
  }

  /** The range the page opens with, `offsetDaysIso(today, -13)` to today,
      has exactly fourteen days, the last of them today. */
  lemma DefaultRangeHasFourteenDays(today: Date)
    requires Valid(today) && today.year >= 101
    ensures |RangeOfIso(OffsetDaysIso(IsoText(today), -13), IsoText(today))| == 14
    ensures RangeOfIso(OffsetDaysIso(IsoText(today), -13), IsoText(today))[0] == Offset(today, -13)
    ensures RangeOfIso(OffsetDaysIso(IsoText(today), -13), IsoText(today))[13] == today
  {
    var first := Offset(today, -13);
    var r := RangeDays(first, today);
    assert RangeOfIso(OffsetDaysIso(IsoText(today), -13), IsoText(today)) == r by {
      IsoTextRoundTrip(today);
      OffsetDaysIsoMoves(IsoText(today), -13);
      OffsetBackStaysInYearRange(today);
      IsoTextRoundTrip(first);
    }
    assert |r| == 14 && r[0] == first && r[13] == today by {
      OffsetDayNumber(today, -13);
      NotAfterDayNumber(first, today);
      RangeDaysEnds(first, today);
    }
  }

  /** The range over the end of February 2026 steps into March. */
  lemma MonthEndRangeExample()
    ensures RangeDays(Date(2026, 2, 27), Date(2026, 3, 2))
            == [Date(2026, 2, 27), Date(2026, 2, 28), Date(2026, 3, 1), Date(2026, 3, 2)]
  {
    var s, e := Date(2026, 2, 27), Date(2026, 3, 2);
    RangeDaysEnds(s, e);
    RangeDaysLength(s, e);
    RangeDaysConsecutive(s, e);
    assert DayNumber(e) - DayNumber(s) == 3;
  }

  // ---------------------------------------------------------------------
  // Logs, today's count and the streak

  /** The dashboard's logs, keyed by calendar day. */
  type Logs = map<Date, set<string>>

  /** The `useEffect` that loads the log of every day of the range. */
  method LoadLogs(store: LocalLogStore, startIso: string, endIso: string) returns (logs: Logs)
    ensures forall d :: d in logs <==> d in RangeOfIso(startIso, endIso)
    ensures forall d :: d in logs ==> Valid(d) && logs[d] == store.LoadDayLog(d)
  {
    var days := DaysInRange(startIso, endIso);
    logs := LoadEach(store, days);
  }

  /** The loop of that effect: one entry per listed day, holding what the store has for it. */
  method LoadEach(store: LocalLogStore, days: seq<Date>) returns (logs: Logs)
    requires forall i :: 0 <= i < |days| ==> Valid(days[i])
    ensures forall d :: d in logs <==> d in days
    ensures forall d :: d in logs ==> Valid(d) && logs[d] == store.LoadDayLog(d)
  {
    logs := map[];
    for i := 0 to |days|
      invariant forall d :: d in logs <==> exists j :: 0 <= j < i && days[j] == d
      invariant forall d :: d in logs ==> Valid(d) && logs[d] == store.LoadDayLog(d)
    {
      logs := logs[days[i] := store.LoadDayLog(days[i])];
    }
  }

  /** A day whose log exists and holds as many ids as there are activities. */
  predicate FullyComplete(logs: Logs, d: Date) {
    d in logs && |logs[d]| == |ACTIVITIES|
  }

  /** `doneToday`: the size of today's log, 0 when there is none. */
  function DoneToday(logs: Logs, today: Date): nat {
    if today in logs then |logs[today]| else 0
  }

  /** The number of fully complete days at the end of the list, counted back
      from the last day and stopped by the first day that is not. */
  function CompleteSuffix(days: seq<Date>, logs: Logs): (n: nat)
    ensures n <= |days|
  {
    if days == [] then 0
    else if FullyComplete(logs, days[|days| - 1]) then CompleteSuffix(days[..|days| - 1], logs) + 1
    else 0
  }

  /** n days at the end of the list are fully complete and the day before them is not. */
  predicate LongestCompleteSuffix(days: seq<Date>, logs: Logs, n: int) {
    0 <= n <= |days|
    && (forall i :: |days| - n <= i < |days| ==> FullyComplete(logs, days[i]))
    && (n < |days| ==> !FullyComplete(logs, days[|days| - 1 - n]))
  }

  /** The streak is the one length of the longest fully complete run ending at the last day. */
  lemma {:induction false} CompleteSuffixIsLongest(days: seq<Date>, logs: Logs, n: int)
    ensures LongestCompleteSuffix(days, logs, n) <==> n == CompleteSuffix(days, logs)
  {
    if days != [] {
      var init := days[..|days| - 1];
      CompleteSuffixIsLongest(init, logs, n - 1);
      assert forall i :: 0 <= i < |init| ==> init[i] == days[i];
    }
  }

  /** The streak loop: walk back from the last day, count fully complete
      days, stop at the first that is missing or incomplete. */
  method Streak(days: seq<Date>, logs: Logs) returns (streak: nat)
    ensures streak == CompleteSuffix(days, logs)
  {
    streak := 0;
    var i := |days| - 1;
    while i >= 0
      invariant -1 <= i < |days|
      invariant streak == |days| - 1 - i
      invariant forall j :: i < j < |days| ==> FullyComplete(logs, days[j])
    {
      var d := days[i];
      if d in logs && |logs[d]| == |ACTIVITIES| {
        streak := streak + 1;
      } else {
        break;
      }
      i := i - 1;
    }
    CompleteSuffixIsLongest(days, logs, streak);
  }

  /** The streak is 0 when the last day is missing or incomplete, and it is
      the whole list exactly when every day is fully complete. */
  lemma StreakExtremes(days: seq<Date>, logs: Logs)
    ensures days != [] && !FullyComplete(logs, days[|days| - 1]) ==> CompleteSuffix(days, logs) == 0
    ensures CompleteSuffix(days, logs) == |days| <==> forall i :: 0 <= i < |days| ==> FullyComplete(logs, days[i])
  {
    CompleteSuffixIsLongest(days, logs, CompleteSuffix(days, logs));
    if forall i :: 0 <= i < |days| ==> FullyComplete(logs, days[i]) {
      CompleteSuffixIsLongest(days, logs, |days|);
    }
  }

  /** A positive streak ending today means all of today's activities are done,
      provided today's log holds only activity ids. */
  lemma StreakMeansTodayDone(days: seq<Date>, logs: Logs, today: Date)
    requires days != [] && days[|days| - 1] == today
    ensures CompleteSuffix(days, logs) > 0 ==> DoneToday(logs, today) == |ACTIVITIES|
    ensures today in logs && (forall x :: x in logs[today] ==> IsActivityId(x))
            ==> DoneToday(logs, today) <= |ACTIVITIES|
  {
    if CompleteSuffix(days, logs) > 0 {
      assert FullyComplete(logs, days[|days| - 1]);
    }
    if today in logs && (forall x :: x in logs[today] ==> IsActivityId(x)) {
      DayLogSizeBound(logs[today]);
    }
  }

  /** The two orderings of a three-day history with one partial day. */
  lemma StreakExamples()
    ensures var full, partial := {"jogging", "pushups", "vibecode", "guitar"}, {"jogging"};
      var d0, d1, d2 := Date(2026, 10, 9), Date(2026, 10, 10), Date(2026, 10, 11);
      CompleteSuffix([d0, d1, d2], map[d0 := full, d1 := full, d2 := partial]) == 0
      && CompleteSuffix([d0, d1, d2], map[d0 := partial, d1 := full, d2 := full]) == 2
  {
    var full, partial := {"jogging", "pushups", "vibecode", "guitar"}, {"jogging"};
    var d0, d1, d2 := Date(2026, 10, 9), Date(2026, 10, 10), Date(2026, 10, 11);
    assert |full| == 4 && |partial| == 1;
    var ending, starting := map[d0 := full, d1 := full, d2 := partial], map[d0 := partial, d1 := full, d2 := full];
    assert !FullyComplete(ending, d2);
    assert FullyComplete(starting, d2) && FullyComplete(starting, d1) && !FullyComplete(starting, d0);
    assert [d0, d1, d2][..2] == [d0, d1] && [d0, d1][..1] == [d0] && [d0][..0] == [];
    assert CompleteSuffix([d0], starting) == 0;
    assert CompleteSuffix([d0, d1], starting) == 1;
  }

  // ---------------------------------------------------------------------
  // The page's date inputs

  /** The default start, thirteen days before today, prints as that day and
      is no later than today as a text. */
  lemma DefaultStartText(today: Date)
    requires Valid(today) && 1001 <= today.year <= 9999
    ensures OffsetDaysIso(IsoText(today), -13) == IsoText(Offset(today, -13))
    ensures LexLessOrEqual(OffsetDaysIso(IsoText(today), -13), IsoText(today))
  {
    var first := Offset(today, -13);
    IsoTextRoundTrip(today);
    OffsetDaysIsoMoves(IsoText(today), -13);
    OffsetBackStaysInYearRange(today);
    assert first.year <= today.year by {
      OffsetDayNumber(today, -13);
      DayNumberOrder(today, first);
    }
    IsoTextOrder(first, today);
    assert Before(first, today) by {
      OffsetDayNumber(today, -13);
      DayNumberOrder(first, today);
    }
  }

  /** Thirteen days before 1000-01-05 is 999-12-23. */
  lemma OffsetBackFrom1000()
    ensures Offset(Date(1000, 1, 5), -13) == Date(999, 12, 23)
  {
    assert DayNumber(Date(1000, 1, 5)) == DayNumber(Date(1000, 1, 1)) + 4 by {
      OffsetInMonth(1000, 1, 5);
      OffsetDayNumber(Date(1000, 1, 1), 4);
    }
    assert DayNumber(Date(1000, 1, 1)) == DayNumber(Date(999, 12, 31)) + 1 by {
      NextDayNumber(Date(999, 12, 31));
    }
    assert DayNumber(Date(999, 12, 31)) == DayNumber(Date(999, 12, 1)) + 30 by {
      OffsetInMonth(999, 12, 31);
      OffsetDayNumber(Date(999, 12, 1), 30);
    }
    assert DayNumber(Date(999, 12, 23)) == DayNumber(Date(999, 12, 1)) + 22 by {
      OffsetInMonth(999, 12, 23);
      OffsetDayNumber(Date(999, 12, 1), 22);
    }
    OffsetDayNumber(Date(1000, 1, 5), -13);
    DayNumberInjective(Offset(Date(1000, 1, 5), -13), Date(999, 12, 23));
  }

  /** The two texts printed around 1000-01-01. */
  lemma TextsAround1000()
    ensures IsoText(Date(1000, 1, 5)) == "1000-01-05"
    ensures IsoText(Date(999, 12, 23)) == "999-12-23"
  {
  }

  /** Where the printed year gains a digit the text order breaks: for today
      1000-01-05 the default start prints as `999-12-23`, which as a text is
      after `1000-01-05`, so the opening range is not ordered. */
  lemma DefaultStartAfterTodayAt1000()
    ensures OffsetDaysIso(IsoText(Date(1000, 1, 5)), -13) == "999-12-23"
    ensures LexLess(IsoText(Date(1000, 1, 5)), OffsetDaysIso(IsoText(Date(1000, 1, 5)), -13))
  {
    IsoTextRoundTrip(Date(1000, 1, 5));
    OffsetDaysIsoMoves(IsoText(Date(1000, 1, 5)), -13);
    OffsetBackFrom1000();
    TextsAround1000();
    assert LexLess("1000-01-05", "999-12-23");
  }

  class DashboardPage {
    const today: string
    var startDate: string
    var endDate: string
    var logs: Logs

    /** What the two guards keep: start <= end <= today, as texts. */
    ghost predicate RangeOrdered()
      reads this
    {
      LexLessOrEqual(startDate, endDate) && LexLessOrEqual(endDate, today)
    }

    /** The initial state: the range `offsetDaysIso(today, -13)` to today. */
    constructor (todayDate: Date)
      requires Valid(todayDate)
      ensures today == IsoText(todayDate) && endDate == today
      ensures startDate == OffsetDaysIso(today, -13)
      ensures logs == map[]
      ensures 1001 <= todayDate.year <= 9999 ==> RangeOrdered()
    {
      var t := IsoText(todayDate);
      var s := OffsetDaysIso(t, -13);
      if 1001 <= todayDate.year <= 9999 {
        assert LexLessOrEqual(s, t) by { DefaultStartText(todayDate); }
      }
      today := t;
      startDate := s;
      endDate := t;
      logs := map[];
    }

    /** `handleStartChange`: a start after the end is ignored. A start it
        takes is never after the end, and an ordered range stays ordered. */
    method HandleStartChange(val: string)
      modifies this`startDate
      ensures startDate == if LexLess(endDate, val) then old(startDate) else val
      ensures startDate != old(startDate) ==> LexLessOrEqual(startDate, endDate)
      ensures old(RangeOrdered()) ==> RangeOrdered()
    {
      if LexLess(endDate, val) {
        return;
      }
      LexLessTotal(val, endDate);
      startDate := val;
    }

    /** `handleEndChange`: an end before the start or after today is ignored.
        An end it takes lies between the start and today, and an ordered range
        stays ordered. */
    method HandleEndChange(val: string)
      modifies this`endDate
      ensures endDate == if LexLess(val, startDate) || LexLess(today, val) then old(endDate) else val
      ensures endDate != old(endDate) ==> LexLessOrEqual(startDate, endDate) && LexLessOrEqual(endDate, today)
      ensures old(RangeOrdered()) ==> RangeOrdered()
    {
      if LexLess(val, startDate) {
        return;
      }
      if LexLess(today, val) {
        return;
      }
      LexLessTotal(startDate, val);
      LexLessTotal(val, today);
      endDate := val;
    }

    /** Reloads the logs of the selected range. */
    method Refresh(store: LocalLogStore)
      modifies this`logs
      ensures forall d :: d in logs <==> d in RangeOfIso(startDate, endDate)
      ensures forall d :: d in logs ==> Valid(d) && logs[d] == store.LoadDayLog(d)
    {
      logs := LoadLogs(store, startDate, endDate);
    }
  }

  /** A cleared date input sends the empty text: no text is before it, so the
      start guard takes it, and it does not read as a date, so the range
      becomes empty. */
  lemma EmptyStartEmptiesRange(endIso: string)
    ensures !LexLess(endIso, "")
    ensures RangeOfIso("", endIso) == []
  {
    assert Split("") == [""];
  }

  /** When the three texts are printed dates of four-digit years, their text
      order is the chronological order the guards mean, and every day of the
      selected range is no later than today. */
  lemma OrderedTextsAreChronological(start: Date, end: Date, today: Date)
    requires Valid(start) && Valid(end) && Valid(today)
    requires 1000 <= start.year <= 9999 && 1000 <= end.year <= 9999 && 1000 <= today.year <= 9999
    requires LexLessOrEqual(IsoText(start), IsoText(end)) && LexLessOrEqual(IsoText(end), IsoText(today))
    ensures NotAfter(start, end) && NotAfter(end, today)
    ensures forall d :: d in RangeDays(start, end) ==> NotAfter(d, today)
  {
    IsoTextOrder(start, end);
    IsoTextOrder(end, today);
    NotAfterDayNumber(start, end);
    NotAfterDayNumber(end, today);
    forall d | d in RangeDays(start, end) ensures NotAfter(d, today) {
      RangeDaysMembership(start, end, d);
      NotAfterDayNumber(d, end);
      NotAfterDayNumber(d, today);
    }
  }
}

=== FILE: date_text.dfy ===
/** The JavaScript string built-ins that the pages apply to dates: `String(n)`,
    `padStart(2, "0")`, `split("-")`, `Number(s)`, the code-unit order of
    `<` and `>` on strings, and the date part of `toISOString()`. */
module DateText {
  import opened Wrappers
  import opened Calendar

  predicate IsDigit(c: char) {
    '0' <= c <= '9'
  }

  predicate AllDigits(s: string) {
    forall i :: 0 <= i < |s| ==> IsDigit(s[i])
  }

  function DigitChar(n: int): (c: char)
    requires 0 <= n <= 9
    ensures IsDigit(c)
  {
    ('0' as int + n) as char
  }

  function DigitValue(c: char): (n: int)
    requires IsDigit(c)
    ensures 0 <= n <= 9 && DigitChar(n) == c
  {
    c as int - '0' as int
  }

  function Pow10(w: nat): (p: nat)
    ensures p >= 1
  {
    if w == 0 then 1 else 10 * Pow10(w - 1)
  }

  /** `String(n)` for a non-negative integer: its shortest decimal digits. */
  function DecimalText(n: nat): (s: string)
    ensures |s| >= 1 && AllDigits(s)
    decreases n
  {
    if n < 10 then [DigitChar(n)] else DecimalText(n / 10) + [DigitChar(n % 10)]
  }

  /** `String(n)` for any integer: a minus sign before negative numbers. */
  function IntText(n: int): (s: string)
    ensures |s| >= 1 && (s[0] == '-' <==> n < 0)
    ensures AllDigits(s[if n < 0 then 1 else 0..])
  {
    if n < 0 then "-" + DecimalText(-n) else DecimalText(n)
  }

  /** `s.padStart(2, "0")`. */
  function PadStart2(s: string): (r: string)
    ensures |r| == if |s| < 2 then 2 else |s|
    ensures r[|r| - |s|..] == s
    ensures forall i :: 0 <= i < |r| - |s| ==> r[i] == '0'
  {
    if |s| == 0 then "00" else if |s| == 1 then "0" + s else s
  }

  /** The last w decimal digits of n, zero padded to exactly w characters. */
  function Fixed(n: nat, w: nat): (s: string)
    ensures |s| == w && AllDigits(s)
  {
    if w == 0 then [] else Fixed(n / 10, w - 1) + [DigitChar(n % 10)]
  }

  /** The value of a string of decimal digits (0 for the empty string). */
  function DigitsValue(s: string): (n: nat)
    requires AllDigits(s)
  {
    if s == [] then 0 else 10 * DigitsValue(s[..|s| - 1]) + DigitValue(s[|s| - 1])
  }

  /** `Number(s)` on the texts that reach it here: the empty string is 0,
      a string of decimal digits is its value, anything else is NaN (None). */
  function NumberOf(s: string): (r: Option<int>)
    ensures r.Some? <==> AllDigits(s)
    ensures r.Some? ==> r.value >= 0
  {
    if s == [] then Some(0)
    else if AllDigits(s) then Some(DigitsValue(s))
    else None
  }

  /** `s.split("-")`: the pieces between the dashes, always at least one. */
  function Split(s: string): (parts: seq<string>)
    ensures |parts| >= 1
  {
    if s == [] then [""]
    else
      var rest := Split(s[1..]);
      if s[0] == '-' then [""] + rest
      else [[s[0]] + rest[0]] + rest[1..]
  }

  /** Lexicographic order on characters: JavaScript's `<` on strings, which
      compares UTF-16 code units and so agrees with it on text without
      characters above U+FFFF (the digit and dash texts compared here). */
  predicate LexLess(s: string, t: string) {
    if |s| == 0 then |t| > 0
    else if |t| == 0 then false
    else if s[0] != t[0] then s[0] < t[0]
    else LexLess(s[1..], t[1..])
  }

  predicate LexLessOrEqual(s: string, t: string) {
    s == t || LexLess(s, t)
  }

  /** The `YYYY-MM-DD` date part of `toISOString()`: four digits for the
      years 0..9999, otherwise a sign and six digits (the expanded year). */
  function IsoStringDate(d: Date): (s: string)
    requires Valid(d)
    ensures |s| >= 10
  {
    if 0 <= d.year <= 9999 then FixedDateText(d.year, d.month, d.day)
    else
      var sign := if d.year < 0 then "-" else "+";
      sign + Fixed(if d.year < 0 then -d.year else d.year, 6) + "-" + Fixed(d.month, 2) + "-" + Fixed(d.day, 2)
  }

  /** Zero-padded fields in the `YYYY-MM-DD` layout. */
  function FixedDateText(y: nat, m: nat, d: nat): (s: string)
    ensures |s| == 10 && s[4] == '-' && s[7] == '-'
  {
    Fixed(y, 4) + "-" + Fixed(m, 2) + "-" + Fixed(d, 2)
  }

  // ---------------------------------------------------------------------
  // Decimal round trips

  lemma {:induction false} DigitsValueFixed(n: nat, w: nat)
    requires n < Pow10(w)
    ensures DigitsValue(Fixed(n, w)) == n
  {
    if w > 0 {
      var s := Fixed(n, w);
      assert s[..|s| - 1] == Fixed(n / 10, w - 1);
      DigitsValueFixed(n / 10, w - 1);
    }
  }

  lemma {:induction false} DigitsValueDecimal(n: nat)
    ensures DigitsValue(DecimalText(n)) == n
    decreases n
  {
    if n >= 10 {
      var s := DecimalText(n);
      assert s[..|s| - 1] == DecimalText(n / 10);
      DigitsValueDecimal(n / 10);
    }
  }

  /** `Number(String(n))` is n. */
  lemma NumberOfDecimal(n: nat)
    ensures NumberOf(DecimalText(n)) == Some(n)
  {
    DigitsValueDecimal(n);
  }

  /** `Number` reads zero-padded digits back as their value. */
  lemma NumberOfFixed(n: nat, w: nat)
    requires n < Pow10(w)
    ensures NumberOf(Fixed(n, w)) == Some(n)
  {
    DigitsValueFixed(n, w);
  }

  /** A number of exactly w digits prints as its w fixed digits. */
  lemma {:induction false} DecimalFixed(n: nat, w: nat)
    requires 1 <= w && Pow10(w - 1) <= n < Pow10(w)
    ensures DecimalText(n) == Fixed(n, w)
  {
    if w == 1 {
      assert n / 10 == 0 && n % 10 == n;
    } else {
      DecimalFixed(n / 10, w - 1);
    }
  }

  /** A year of four digits prints as its four fixed digits. */
  lemma DecimalFourDigits(n: nat)
    requires 1000 <= n <= 9999
    ensures DecimalText(n) == Fixed(n, 4)
  {
    assert Pow10(3) == 1000 && Pow10(4) == 10000;
    DecimalFixed(n, 4);
  }

  /** A month or a day of month, padded to two characters, is its two fixed digits. */
  lemma PadTwoDigits(n: int)
    requires 1 <= n <= 99
    ensures PadStart2(IntText(n)) == Fixed(n, 2)
  {
    if n < 10 {
      assert Fixed(n, 2) == Fixed(0, 1) + [DigitChar(n)];
      assert Fixed(0, 1) == [DigitChar(0)] == "0";
    } else {
      assert Pow10(1) == 10 && Pow10(2) == 100;
      DecimalFixed(n, 2);
    }
  }

  // ---------------------------------------------------------------------
  // Splitting

  lemma {:induction false} SplitNoDash(a: string)
    requires '-' !in a
    ensures Split(a) == [a]
  {
    if a != [] {
      assert '-' !in a[1..] by {
        forall i | 0 <= i < |a| - 1 ensures a[1..][i] != '-' { assert a[1..][i] == a[i + 1]; }
      }
      SplitNoDash(a[1..]);
      assert [a[0]] + a[1..] == a;
    }
  }

  lemma {:induction false} SplitAtDash(a: string, b: string)
    requires '-' !in a
    ensures Split(a + "-" + b) == [a] + Split(b)
  {
    if a == [] {
      assert a + "-" + b == "-" + b;
      assert ("-" + b)[1..] == b;
    } else {
      assert (a + "-" + b)[1..] == a[1..] + "-" + b;
      SplitAtDash(a[1..], b);
      assert [a[0]] + a[1..] == a;
    }
  }

  /** Three dash-free pieces joined by dashes split back into the three pieces. */
  lemma SplitThree(a: string, b: string, c: string)
    requires '-' !in a && '-' !in b && '-' !in c
    ensures Split(a + "-" + b + "-" + c) == [a, b, c]
  {
    assert a + "-" + b + "-" + c == a + "-" + (b + "-" + c);
    SplitAtDash(a, b + "-" + c);
    SplitAtDash(b, c);
    SplitNoDash(c);
  }

  lemma DigitsHaveNoDash(s: string)
    requires AllDigits(s)
    ensures '-' !in s
  {
    forall i | 0 <= i < |s| ensures s[i] != '-' {
      assert IsDigit(s[i]);
    }
  }

  // ---------------------------------------------------------------------
  // Order of texts

  /** Comparing two texts whose first parts have equal length compares the
      first parts, and the rest only when the first parts are equal. */
  lemma {:induction false} LexConcat(x: string, y: string, x': string, y': string)
    requires |x| == |x'|
    ensures LexLess(x + y, x' + y') <==> LexLess(x, x') || (x == x' && LexLess(y, y'))
  {
    if |x| > 0 {
      assert (x + y)[0] == x[0] && (x' + y')[0] == x'[0];
      if x[0] == x'[0] {
        assert (x + y)[1..] == x[1..] + y;
        assert (x' + y')[1..] == x'[1..] + y';
        LexConcat(x[1..], y, x'[1..], y');
        if x[1..] == x'[1..] {
          assert x == [x[0]] + x[1..] && x' == [x'[0]] + x'[1..];
        }
      }
    } else {
      assert x + y == y && x' + y' == y';
    }
  }

  lemma LexLessIrreflexive(s: string)
    ensures !LexLess(s, s)
  {
  }

  lemma {:induction false} LexLessTransitive(a: string, b: string, c: string)
    requires LexLess(a, b) && LexLess(b, c)
    ensures LexLess(a, c)
  {
    if |a| > 0 && a[0] == b[0] && b[0] == c[0] {
      LexLessTransitive(a[1..], b[1..], c[1..]);
    }
  }

  /** Any two texts are equal or one is before the other. */
  lemma {:induction false} LexLessTotal(a: string, b: string)
    ensures LexLess(a, b) || a == b || LexLess(b, a)
  {
    if |a| > 0 && |b| > 0 && a[0] == b[0] {
      LexLessTotal(a[1..], b[1..]);
      if a[1..] == b[1..] {
        assert a == [a[0]] + a[1..] && b == [b[0]] + b[1..];
      }
    }
  }

  /** Zero-padded numbers of one width compare as texts the way they compare as numbers. */
  lemma {:induction false} FixedOrder(a: nat, b: nat, w: nat)
    requires a < Pow10(w) && b < Pow10(w)
    ensures LexLess(Fixed(a, w), Fixed(b, w)) <==> a < b
    ensures Fixed(a, w) == Fixed(b, w) <==> a == b
  {
    if w == 0 {
      assert a == 0 && b == 0;
    } else {
      var fa, fb := Fixed(a / 10, w - 1), Fixed(b / 10, w - 1);
      var da, db := DigitChar(a % 10), DigitChar(b % 10);
      FixedOrder(a / 10, b / 10, w - 1);
      LexConcat(fa, [da], fb, [db]);
      assert LexLess([da], [db]) <==> da < db;
      if Fixed(a, w) == Fixed(b, w) {
        assert Fixed(a, w)[..w - 1] == fa && Fixed(b, w)[..w - 1] == fb;
        assert Fixed(a, w)[w - 1] == da && Fixed(b, w)[w - 1] == db;
        assert DigitValue(da) == a % 10 && DigitValue(db) == b % 10;
      }
    }
  }

  /** Texts in the `YYYY-MM-DD` layout compare with `<` as their fields compare
      chronologically: year first, then month, then day. */
  lemma FixedDateTextOrder(y1: nat, m1: nat, d1: nat, y2: nat, m2: nat, d2: nat)
    requires y1 < 10000 && y2 < 10000 && m1 < 100 && m2 < 100 && d1 < 100 && d2 < 100
    ensures LexLess(FixedDateText(y1, m1, d1), FixedDateText(y2, m2, d2))
            <==> y1 < y2 || (y1 == y2 && m1 < m2) || (y1 == y2 && m1 == m2 && d1 < d2)
  {
    var a1, b1, c1 := Fixed(y1, 4), Fixed(m1, 2), Fixed(d1, 2);
    var a2, b2, c2 := Fixed(y2, 4), Fixed(m2, 2), Fixed(d2, 2);
    assert FixedDateText(y1, m1, d1) == a1 + ("-" + (b1 + ("-" + c1)));
    assert FixedDateText(y2, m2, d2) == a2 + ("-" + (b2 + ("-" + c2)));
    assert Pow10(2) == 100 && Pow10(4) == 10000;
    FixedOrder(y1, y2, 4);
    FixedOrder(m1, m2, 2);
    FixedOrder(d1, d2, 2);
    LexLessIrreflexive("-");
    LexConcat(a1, "-" + (b1 + ("-" + c1)), a2, "-" + (b2 + ("-" + c2)));
    LexConcat("-", b1 + ("-" + c1), "-", b2 + ("-" + c2));
    LexConcat(b1, "-" + c1, b2, "-" + c2);
    LexConcat("-", c1, "-", c2);
  }

  /** Distinct fields give distinct `YYYY-MM-DD` texts. */
  lemma FixedDateTextInjective(y1: nat, m1: nat, d1: nat, y2: nat, m2: nat, d2: nat)
    requires y1 < 10000 && y2 < 10000 && m1 < 100 && m2 < 100 && d1 < 100 && d2 < 100
    requires FixedDateText(y1, m1, d1) == FixedDateText(y2, m2, d2)
    ensures y1 == y2 && m1 == m2 && d1 == d2
  {
    var t1, t2 := FixedDateText(y1, m1, d1), FixedDateText(y2, m2, d2);
    assert t1[..4] == Fixed(y1, 4) && t2[..4] == Fixed(y2, 4);
    assert t1[5..7] == Fixed(m1, 2) && t2[5..7] == Fixed(m2, 2);
    assert t1[8..] == Fixed(d1, 2) && t2[8..] == Fixed(d2, 2);
    assert Pow10(2) == 100 && Pow10(4) == 10000;
    FixedOrder(y1, y2, 4);
    FixedOrder(m1, m2, 2);
    FixedOrder(d1, d2, 2);
  }
}

=== FILE: log_in.dfy ===
/** The "Log In" page (app/log-in/page.tsx): today's checklist of activities.
    Tapping a tile flips that activity in today's set and writes the whole set
    back to the local store; the header shows how many are done, the rounded
    percentage and, when every activity is done, a congratulation line. */
module LogIn {
  import opened Calendar
  import opened Activities

  /** `ACTIVITIES.length`. */
  const Total: nat := |ACTIVITIES|

  // ---------------------------------------------------------------------
  // Toggling one activity

  /** The set `toggle` builds: a copy of `done` with `id` deleted when it was
      present and added when it was absent. */
  function Flip(done: set<string>, id: string): (r: set<string>)
    ensures id in r <==> id !in done
    ensures forall x :: x != id ==> (x in r <==> x in done)
  {
    if id in done then done - {id} else done + {id}
  }

  /** Toggling the same id twice gives back the set it started from. */
  lemma FlipTwice(done: set<string>, id: string)
    ensures Flip(Flip(done, id), id) == done
  {
    var once := Flip(done, id);
    var twice := Flip(once, id);
    forall x ensures x in twice <==> x in done {
      if x == id {
        assert x in twice <==> x !in once;
      } else {
        assert x in twice <==> x in once;
      }
    }
  }

  /** Flipping an activity id keeps a set of activity ids a set of activity ids,
      and its size moves by exactly one. */
  lemma FlipKeepsIds(done: set<string>, id: ActivityId)
    requires forall x :: x in done ==> IsActivityId(x)
    ensures forall x :: x in Flip(done, id) ==> IsActivityId(x)
    ensures id in done ==> |Flip(done, id)| == |done| - 1
    ensures id !in done ==> |Flip(done, id)| == |done| + 1
  {
  }

  // ---------------------------------------------------------------------
  // The completion summary

  /** `Math.round((count / total) * 100)` with `total` four: the whole number
      nearest to `100 * count / Total`, halves rounding up. */
  function Percent(count: nat): (p: nat)
    ensures 2 * Total * p <= 200 * count + Total < 2 * Total * (p + 1)
  {
    (200 * count + Total) / (2 * Total)
  }

  /** With four activities the quotient is exact: every activity is worth 25. */
  lemma PercentIsQuarterSteps(count: nat)
    ensures Percent(count) == 25 * count
  {
    var p := Percent(count);
    assert Total == 4;
    assert 8 * p <= 200 * count + 4 < 8 * p + 8;
  }

  /** The worked values of the header: 0, 25, 50, 75 and 100 percent. */
  lemma PercentExamples()
    ensures Percent(0) == 0 && Percent(1) == 25 && Percent(2) == 50
    ensures Percent(3) == 75 && Percent(4) == 100
  {
    PercentIsQuarterSteps(0);
    PercentIsQuarterSteps(1);
    PercentIsQuarterSteps(2);
    PercentIsQuarterSteps(3);
    PercentIsQuarterSteps(4);
  }

  /** `allDone`: every activity of the registry is counted. */
  predicate AllDone(count: nat) {
    count == Total
  }

  /** A day log of activity ids counts at most `Total`, so the percentage stays
      within 0..100 and reaches 100 exactly when `allDone` holds. */
  lemma SummaryOfIds(done: set<string>)
    requires forall x :: x in done ==> IsActivityId(x)
    ensures |done| <= Total
    ensures 0 <= Percent(|done|) <= 100
    ensures Percent(|done|) == 100 <==> AllDone(|done|)
  {
    DayLogSizeBound(done);
    PercentIsQuarterSteps(|done|);
  }

  /** `allDone` holds exactly when every registry id is in the set. */
  lemma AllDoneMeansEveryActivity(done: set<string>)
    requires forall x :: x in done ==> IsActivityId(x)
    ensures AllDone(|done|) <==> forall i :: 0 <= i < |ACTIVITIES| ==> ACTIVITIES[i].id in done
  {
    var ids := {"jogging", "pushups", "vibecode", "guitar"};
    assert done <= ids;
    assert |ids| == 4;
    RegistryCoversIds();
    if AllDone(|done|) {
      if done != ids {
        var missing :| missing in ids && missing !in done;
        assert done <= ids - {missing};
        assert |ids - {missing}| == 3;
        SubsetCardinality(done, ids - {missing});
        assert false;
      }
    }
    if forall i :: 0 <= i < |ACTIVITIES| ==> ACTIVITIES[i].id in done {
      assert ACTIVITIES[0].id in done && ACTIVITIES[1].id in done;
      assert ACTIVITIES[2].id in done && ACTIVITIES[3].id in done;
      assert done == ids;
    }
  }

  // ---------------------------------------------------------------------
  // The page

  class LogInPage {
    /** The `done` state: the activities checked today. */
    var done: set<string>
    /** Set once the mount effect has run; before that the page shows zeros. */
    var mounted: bool
    const store: LocalLogStore

    /** The first render: nothing checked and not yet mounted. */
    constructor (store: LocalLogStore)
      ensures this.store == store
      ensures done == {} && !mounted
    {
      this.store := store;
      done := {};
      mounted := false;
    }

    /** The mount effect: load the day log for the current date `now`. */
    method Mount(now: Date)
      requires Valid(now)
      modifies this`done, this`mounted
      ensures done == store.LoadDayLog(now) && mounted
    {
      done := store.LoadDayLog(now);
      mounted := true;
    }

    /** `toggle(id)`: flip `id` in a copy of the current set, store the copy
        under the key of the current date `now`, and make it the new state.
        The previous set is recovered by flipping again, and no other day's
        log changes. */
    method Toggle(id: ActivityId, now: Date)
      requires Valid(now) && store.hasWindow
      modifies this`done, store`entries
      ensures done == Flip(old(done), id)
      ensures old(done) == Flip(done, id)
      ensures store.LoadDayLog(now) == done
      ensures forall e :: Valid(e) && DateKey(e) != DateKey(now) ==>
                store.LoadDayLog(e) == old(store.LoadDayLog(e))
      ensures mounted == old(mounted)
    {
      var next := done;
      if id in next {
        next := next - {id};
      } else {
        next := next + {id};
      }
      FlipTwice(done, id);
      store.SaveDayLog(next, now);
      done := next;
    }

    /** The count shown in the header: zero until mounted. */
    function ShownCount(): (c: nat)
      reads this
      ensures c <= |done|
      ensures c == Total <==> ShowsAllDone()
    {
      if mounted then |done| else 0
    }

    /** The percentage shown in the header and the progress bar: zero until mounted. */
    function ShownPercent(): (p: nat)
      reads this
      ensures !mounted ==> p == 0
      ensures mounted ==> p == 25 * |done|
    {
      PercentIsQuarterSteps(|done|);
      if mounted then Percent(|done|) else 0
    }

    /** Whether the "All done for today" line is shown. */
    predicate ShowsAllDone()
      reads this
    {
      AllDone(|done|) && mounted
    }
  }

  /** Once mounted with a day log of activity ids, the shown count is at most
      the total, the shown percentage is within 0..100, and it is 100 exactly
      when the congratulation line shows. */
  lemma ShownSummaryAgrees(page: LogInPage)
    requires page.mounted
    requires forall x :: x in page.done ==> IsActivityId(x)
    ensures page.ShownCount() <= Total
    ensures page.ShownPercent() <= 100
    ensures page.ShownPercent() == 100 <==> page.ShowsAllDone()
  {
    SummaryOfIds(page.done);
  }
}

=== FILE: wrappers.dfy ===
/** The optional value used for JavaScript's `NaN` and "Invalid Date" outcomes. */
module Wrappers {

  datatype Option<T> = None | Some(value: T)
}
